=== FILE: README.md ===
# Refund ingestion: a Dafny model

This project models the refund-ingestion core of two small Flask apps. Each month, payment providers send refund spreadsheets. The model covers:

- **`parse_refunds_data`.** It turns a workbook of provider sheets into one frame of refund rows. Each row is tagged with the lower-cased sheet name as `provider`. Amounts are multiplied by 100 and dates are parsed from `YYYYMMDD`. The function then rejects null dates, and after that rejects missing columns.
- **`last_month()` and the names derived from it.** These are the staged blob `tmp/refund_payments_<m>.csv`, the confirmed blob `refund_payments_<m>.csv` and the table `<project>.archive.refund_payments_<m>`.
- **The object store.** `upload_gcs`, `move_blob` and `delete_tmp` work on a map from (bucket, object name) to content.
- **The load step of `blob_to_bq`.** It is an append of the blob's lines, minus the first, to a table in a map of append-only tables.
- **The routes `/preview`, `/sent` and `/cancel` of `apps/refunds_data`.** Each route is a pure transition of the pair (store, warehouse).
- **The `/preview` route of `apps/refunds_data_flask`.** It chooses between the CSV and the spreadsheet reader by file name, and guards the upload attempt.

Modules, leaf first:

| module | file | contents |
|---|---|---|
| `Wrappers` | wrappers.dfy | `Option`, `Result` |
| `Strings` | strings.dfy | `str(n)`, `str.lower()`, `sub in s`, `startswith`, `os.path.splitext` |
| `Dates` | dates.dfy | calendar dates, `%Y%m%d` parsing and formatting |
| `Normalizer` | normalizer.dfy | sheets, rows, `parse_refunds_data` |
| `Naming` | naming.dfy | `last_month()`, blob names, table id |
| `BlobStore` | blobstore.dfy | upload, move, delete by prefix |
| `Loader` | loader.dfy | the append-only load job |
| `Csv` | csv.dfy | `df.to_csv` as header plus records |
| `Requests` | requests.dfy | uploaded files, `df.head()` |
| `RefundsApp` | refunds_app.dfy | routes of `apps/refunds_data` |
| `FlaskApp` | flask_app.dfy | `/preview` of `apps/refunds_data_flask` |

Dafny's `Normalizer.Parse` is written once and stands for both copies of `parse_refunds_data`. The two copies are identical line for line. `FlaskApp.ExcelBranchIsParse` ties the flask copy to it.

The model follows these points of the code and the pandas behaviour it relies on:

- `pd.concat` takes the union of the sheets' columns. A column that only some sheets declare is empty in the rows of the other sheets. So "Expected fields" is raised only when **no** sheet declares `order_id` or `country`.
- `df.amount` and `df.date` raise before any check when no sheet has that column (`NoAmountColumn`, `NoDateColumn`).
- A sheet with its own `provider` column duplicates the tag column, so `df.provider.str` raises (`ProviderColumnClash`).
- An empty workbook cannot be concatenated (`NoSheets`).
- `to_datetime` reads the texts `NaT`, `nat`, `NAT`, `nan`, `NaN` and `NAN` as missing, so such a cell counts as a null date, not as a `BadDate`.
- `to_datetime` raises on the first cell it cannot parse (`BadDate`). This happens before the null-date check, and that check comes before the column check.
- In `/preview` of `apps/refunds_data`, a failed parse or a name without `xls` leaves `df` unbound. The upload line then raises, so nothing is staged and the page is a server error.
- `/cancel` deletes under `tmp/` in the literal bucket `madecom-dev-tommy-watts-sandbox`. The other routes use the `BUCKET` variable. Cancelling only affects the staged blob when the two buckets are the same.
- `last_month()` writes the month unpadded and never takes its `else 12` branch. January therefore gives `<year>0` and the year is not decremented. The model keeps this behaviour as written: `Naming.LastMonthShape` states it.

## Model

| member | source | states |
|---|---|---|
| Normalizer.Parse | apps/refunds_data/main.py:12-23 | on success there is one row per sheet row, all five columns are in the frame, and each row's provider is the lower-cased name of its frame row's sheet, with the date its cell spells |
| Normalizer.ParseAcceptsExactly | apps/refunds_data/main.py:12-23 | parsing succeeds iff the workbook is non-empty, `order_id`, `date`, `amount` and `country` are each declared by some sheet, no sheet declares `provider`, and every row of every sheet has a date cell that parses |
| Normalizer.Locate | apps/refunds_data/main.py:13-15 | every frame row comes from a row of some sheet: it sits at that sheet's offset (the sum of the earlier sheets' lengths) plus its row index |
| Normalizer.ConcatAppend | apps/refunds_data/main.py:13-15 | the frame of two joined workbooks is the first frame followed by the second: sheets appear in workbook order |
| Normalizer.Concat | apps/refunds_data/main.py:13-15 | concatenating the sheets gives a frame with as many rows as all sheets together (where each row lands is stated by `Normalizer.ConcatAt` and `Normalizer.Locate`) |
| Normalizer.ConcatAt | apps/refunds_data/main.py:13-15 | row j of sheet i sits at Offset(i)+j, tagged with its sheet's name, with empty cells for columns its sheet lacks |
| Normalizer.ParseRowAt | apps/refunds_data/main.py:13-18 | on success row j of sheet i becomes the frame row at Offset(i)+j: provider is the lower-cased sheet name, amount is the raw amount times 100, the date is the one its cell spells, and order id and country are unchanged |
| Normalizer.ParseDates | apps/refunds_data/main.py:17 | the date column converts iff every cell is empty, a null spelling (`NaT`, `nat`, `NAT`, `nan`, `NaN`, `NAN`) or a date that parses; exactly the empty and null-spelled cells become NaT, the others the dates they spell; otherwise the error names the first bad cell |
| Normalizer.BadDateNamesCell | apps/refunds_data/main.py:17 | a BadDate error carries the text of a date cell of some sheet that is not a null spelling and does not parse |
| Normalizer.NullDatesBeforeColumns | apps/refunds_data/main.py:19-22 | with every date cell parseable or blank and some row lacking a date (no column, empty cell or a null spelling), the error is the null-dates one even when order_id or country is missing |
| Normalizer.ExpectedFieldsExactly | apps/refunds_data/main.py:21-22 | the "Expected fields" error occurs iff all earlier steps pass and order_id or country is declared by no sheet |
| Strings.Lower | apps/refunds_data/main.py:18 | the lower-cased name has the same length, contains no upper-case letter, and differs only where an upper-case letter was shifted to lower case |
| Strings.LowerIdempotent | apps/refunds_data/main.py:18 | lower-casing a lower-cased provider changes nothing |
| Dates.ParseYmd | apps/refunds_data/main.py:17 | a parsed date is a representable calendar date whose `%Y%m%d` rendering is the cell itself |
| Dates.ParseFormatRoundTrip | apps/refunds_data/main.py:17 | every representable date survives formatting and re-parsing |
| Dates.ParseYmdExactly | apps/refunds_data/main.py:17 | a cell parses iff it is the rendering of some representable date |
| Naming.LastMonth | apps/refunds_data/main.py:73-75 | the month string is made of digits only and starts with the full year, followed by at least one month digit |
| Naming.LastMonthShape | apps/refunds_data/main.py:73-75 | for a real clock the string is the year's digits followed by the digits of month-1, unpadded: one month digit up to October and two after; January yields year+"0"; it has 5 or 6 digits for four-digit years |
| Naming.LastMonthInjective | apps/refunds_data/main.py:73-75 | for four-digit years distinct months give distinct strings |
| Strings.NatToStringShape | apps/refunds_data/main.py:75 | `str(n)` is a non-empty digit string without a leading zero whose value is n |
| Strings.NatToStringLength | apps/refunds_data/main.py:75 | `str(n)` has k+1 digits when 10^k <= n < 10^(k+1) |
| Strings.NatToStringInjective | apps/refunds_data/main.py:75 | equal renderings come from equal numbers |
| Naming.KeysSeparated | apps/refunds_data/main.py:103-104 | the staged key is `tmp/` followed by the confirmed key; the confirmed key is not under `tmp/`; the two differ |
| Naming.ConfirmedKeyInjective | apps/refunds_data/main.py:103 | different month strings give different confirmed keys |
| Naming.TableIdShape | apps/refunds_data/main.py:105 | for a month string without dots or slashes the table id is `<project>.archive.refund_payments_<m>` |
| Strings.SplitExtStripsSuffix | apps/refunds_data/main.py:105 | `splitext(root + ".csv")[0] == root` for a plain file name root |
| Strings.Contains | apps/refunds_data/main.py:91 | `sub in s` holds iff sub occurs at some index of s |
| BlobStore.Upload | apps/refunds_data/main.py:26-33 | the destination holds the new content and every other blob is unchanged |
| BlobStore.UploadLastWriteWins | apps/refunds_data/main.py:26-33 | a second upload to the same name replaces the first entirely |
| BlobStore.DeletePrefix | apps/refunds_data/main.py:36-40 | exactly the blobs of that bucket whose names start with the prefix disappear; the rest keep their content |
| BlobStore.DeletePrefixIdempotent | apps/refunds_data/main.py:36-40 | deleting by prefix twice equals deleting once |
| BlobStore.DeleteDiscardsUpload | apps/refunds_data/main.py:36-40 | an upload under the prefix followed by the delete leaves the same store as the delete alone |
| BlobStore.Move | apps/refunds_data/main.py:42-47 | a move fails iff the source is missing; otherwise the destination holds the source's content, the source is gone when the names differ, and nothing else changes |
| BlobStore.MoveNotRepeatable | apps/refunds_data/main.py:42-47 | after a successful move between distinct names, the same move fails |
| BlobStore.MoveBackRestores | apps/refunds_data/main.py:42-47 | moving onto a free name and back restores the store |
| Loader.SkipHeader | apps/refunds_data/main.py:60 | the loaded lines are the content without its first line |
| Loader.Append | apps/refunds_data/main.py:66-68 | the target table gains the lines at its end (created empty if absent); other tables are unchanged |
| Loader.Load | apps/refunds_data/main.py:49-71 | the load fails iff the blob is missing; otherwise the table gains the blob's lines after the header and no other table changes |
| Loader.LoadTwiceDuplicates | apps/refunds_data/main.py:66-70 | loading the same blob twice appends its rows twice |
| Csv.ToCsv | apps/refunds_data/main.py:95 | `to_csv(index=False)` gives one header line, first and only there, then one record per row, carrying exactly the frame's rows in order |
| Csv.CsvRoundTrip | apps/refunds_data/main.py:95 | serialising the frame and skipping the header gives back exactly the frame's rows in order |
| Requests.Head | apps/refunds_data/main.py:96 | the preview shows the first min(5, n) rows unchanged |
| RefundsApp.Preview | apps/refunds_data/main.py:82-98 | the warehouse never changes; the preview page appears iff a file named with `xls` parses; the store changes only then, by uploading that frame's CSV to the staged key, and the page then shows the first five parsed rows and the file name |
| RefundsApp.Sent | apps/refunds_data/main.py:100-109 | always renders the sent page; with nothing staged, nothing changes |
| RefundsApp.Cancel | apps/refunds_data/main.py:111-114 | removes exactly the sandbox bucket's `tmp/` blobs, every surviving blob keeps its content, and the warehouse is left alone |
| RefundsApp.SentPromotesAndLoads | apps/refunds_data/main.py:102-106 | with a staged blob, it moves to the confirmed name, the staged name disappears, every other blob stays with its content unchanged, and the month's table alone gains its lines after the header |
| RefundsApp.SentTwiceLoadsOnce | apps/refunds_data/main.py:100-109 | a second `/sent` for the same month changes nothing |
| RefundsApp.CancelThenSentLoadsNothing | apps/refunds_data/main.py:111-114 | when the configured bucket is the sandbox bucket, `/sent` after `/cancel` moves and loads nothing |
| RefundsApp.CancelMissesOtherBucket | apps/refunds_data/main.py:111-114 | when the configured bucket is another bucket, `/cancel` leaves every blob in it, including the staged one, which a following `/sent` moves to the confirmed name and loads into the month's table |
| RefundsApp.CancelKeepsConfirmed | apps/refunds_data/main.py:111-114 | confirmed blobs survive `/cancel` |
| RefundsApp.PreviewThenSent | apps/refunds_data/main.py:90-106 | when both requests fall in the same month, preview then confirm leaves the confirmed blob holding the frame's CSV, no staged blob, and the month's table extended by exactly the parsed rows in order |
| RefundsApp.PreviewThenSentAcrossMonths | apps/refunds_data/main.py:87-104 | when `/sent` falls in another month than the `/preview` and nothing is staged for that later month, it changes nothing; if the preview staged a file, that blob stays with the frame's CSV |
| RefundsApp.MonthTableName | apps/refunds_data/main.py:103-105 | the table loaded is `<project>.archive.refund_payments_<last month>` |
| FlaskApp.ReadUpload | apps/refunds_data_flask/main.py:57-60 | a name containing `csv` is read as CSV even if it contains `xls`; only `xls` names without `csv` are parsed; names with neither bind no frame |
| FlaskApp.Preview | apps/refunds_data_flask/main.py:47-71 | no file gives the 400 page; the upload is attempted iff a file is given, the submit button is set and the read did not raise; the preview page appears iff a frame was read, and it shows that frame's first five rows (for a spreadsheet, the first five parsed rows) |
| FlaskApp.CsvWinsAndIsUntouched | apps/refunds_data_flask/main.py:57-58 | whether or not the submit button is set, the CSV branch previews the table's rows exactly as read: no scaling, no lower-casing, no checks |
| FlaskApp.ExcelBranchIsParse | apps/refunds_data_flask/main.py:13-24 | the spreadsheet branch yields a frame iff the parser accepts the workbook, and that frame is the parser's rows |
| FlaskApp.ExcelBranchRow | apps/refunds_data_flask/main.py:14-19 | through that branch, row j of sheet i is normalised: provider is the lower-cased sheet name, amount times 100, date from its cell |
| FlaskApp.UnknownNameStillAttemptsUpload | apps/refunds_data_flask/main.py:56-71 | a name with neither `csv` nor `xls` still reaches the upload when submit is set, and the page then fails |
| FlaskApp.RejectedWorkbookNotUploaded | apps/refunds_data_flask/main.py:56-69 | a workbook the parser rejects never reaches the upload |

## Left out

- Concurrency: requests are modelled one at a time, each route as one step. `app.run` serves requests in threads, and `/sent` makes two separate remote calls: the move, then the load (apps/refunds_data/main.py:104-106). Interleavings are not represented, for example a second `/preview` and `/sent` running between one `/sent`'s move and its load, which loads the second file twice and the first never.
- Web plumbing: routing, templates, redirects as HTTP, the 500 handler, `app.run`, and the `GET` branch of the flask `/preview`. Pages are a datatype here.
- Cloud clients: client construction, URIs, the load job's schema types and waiting on `load_job.result()`. The store is a map and the warehouse a map of append-only line sequences.
- Loader.Load: the only load failure modelled is a missing source blob. Rejections by the warehouse itself are not modelled, because they depend on how it parses the CSV. Such rejections include extra columns and cells it cannot read as the schema's types.
- Loader.Load: the load schema at apps/refunds_data/main.py:53-59 is positional, and the header line is skipped, not matched. A frame whose columns come out as `provider,country,date,amount,order_id` (a sheet with header `country,date,amount,order_id`) loads without error, with `order_id` and `country` swapped. The model's lines carry whole rows, so it does not represent column order.
- RefundsApp.PreviewThenSent: it is stated for both requests falling in the same month, since each request reads the clock itself (apps/refunds_data/main.py:87 and apps/refunds_data/main.py:103). Across a month boundary `/sent` looks for another staged name and does nothing, as `RefundsApp.PreviewThenSentAcrossMonths` states.
- RefundsApp.PreviewThenSent: "the month's table is extended by exactly the parsed rows" holds only when the frame's columns come out in the schema's order `provider,order_id,date,amount,country`. Otherwise the warehouse stores the same cells under the positional columns.
- Reader failures in the flask app: `pd.read_csv` (apps/refunds_data_flask/main.py:58) and `pd.read_excel` (apps/refunds_data_flask/main.py:14) can raise on a malformed file. The exception is caught, `df` stays unbound, the page ends in a server error, and no upload is attempted. The model's uploaded file is already decoded, so its CSV branch always yields a frame and its spreadsheet branch fails only in the parser's own steps.
- Environment and credentials: `os.environ` becomes `RefundsApp.Env`. The credentials assignment at apps/refunds_data_flask/main.py:9 is configuration.
- File decoding: the bytes are not read. An uploaded file carries what `read_excel` and `read_csv` would make of it. Columns other than the five named ones are not modelled, and neither are sheets whose columns clash with `reset_index`'s `level_0`/`level_1`.
- Amounts are exact reals, so float rounding of `amount * 100` is not modelled. Neither is the repetition of a text cell by `* 100`.
- Dates.ParseYmd: accepts only the eight-digit zero-padded form. The model does not cover the library's other accepted spellings, such as an unpadded month or day, or numeric cells rendered with a fraction.
- Strings.Lower: covers ASCII letters only. Python's full Unicode lower-casing is not modelled.
- The clock: `datetime.now()` is the `Naming.Clock` parameter.
- Logging and `print`.
- The flask `upload_gcs` call passes the file object to `os.path.basename`, so its outcome depends on library behaviour. The model records only whether the call was reached (`FlaskApp.Outcome.uploadAttempted`), not what it stores.
- Failures of the store itself (unreachable service) are not modelled. Such a failure in `upload_gcs` would also end `/preview` in a server error.

## Behaviour worth knowing

- **No content checks.** The code has no list of allowed providers or countries, and no check that the dates fall in the previous month.
- **Blob names.** The month part of the names is the year followed by the unpadded previous month, so January gives month `0`.
- **Missing columns.** `amount` or `date` missing from every sheet fails before any check. `order_id` or `country` missing from every sheet gives "Expected fields".
- **Flask CSV branch.** It applies no normalisation.
- **Flask upload guard.** The upload is reached for names containing neither `csv` nor `xls`.

=== FILE: blobstore.dfy ===
/** The object store as the routes use it: `upload_gcs`, `move_blob` and
    `delete_tmp`, over a map from (bucket, object name) to content. */
module BlobStore {
  import opened Wrappers
  import opened Strings

  datatype BlobId = BlobId(bucket: string, name: string)

  type Store<C> = map<BlobId, C>

  datatype StoreError = NotFound(id: BlobId)

  /** `upload_gcs`: writes `c` under `id`, replacing any earlier object there. */
  function Upload<C>(s: Store<C>, id: BlobId, c: C): (r: Store<C>)
    ensures id in r && r[id] == c
    ensures forall x :: x != id ==> (x in r <==> x in s)
    ensures forall x :: x != id && x in s ==> r[x] == s[x]
  {
    s[id := c]
  }

  /** A second upload to the same name wins outright. */
  lemma UploadLastWriteWins<C>(s: Store<C>, id: BlobId, a: C, b: C)
    ensures Upload(Upload(s, id, a), id, b) == Upload(s, id, b)
  {
  }

  /** The blob `delete_tmp` removes: in the bucket, with a name under the prefix. */
  predicate Under(x: BlobId, bucket: string, prefix: string) {
    x.bucket == bucket && StartsWith(x.name, prefix)
  }

  /** `delete_tmp`: deletes every listed blob of the bucket whose name starts with `prefix`. */
  function DeletePrefix<C>(s: Store<C>, bucket: string, prefix: string): (r: Store<C>)
    ensures forall x :: x in r <==> x in s && !Under(x, bucket, prefix)
    ensures forall x :: x in r ==> r[x] == s[x]
  {
    map x | x in s && !Under(x, bucket, prefix) :: s[x]
  }

  /** Deleting by prefix twice is deleting once. */
  lemma DeletePrefixIdempotent<C>(s: Store<C>, bucket: string, prefix: string)
    ensures DeletePrefix(DeletePrefix(s, bucket, prefix), bucket, prefix) == DeletePrefix(s, bucket, prefix)
  {
  }

  /** An upload under the prefix followed by the delete leaves no trace of it:
      the delete restores the store to what deleting alone would give. */
  lemma DeleteDiscardsUpload<C>(s: Store<C>, id: BlobId, c: C, prefix: string)
    requires Under(id, id.bucket, prefix)
    ensures DeletePrefix(Upload(s, id, c), id.bucket, prefix) == DeletePrefix(s, id.bucket, prefix)
  {
  }

  /** `move_blob` (`Bucket.rename_blob`): copy the source to the destination,
      then delete the source unless the two names coincide. A missing source
      raises and leaves the store as it was. */
  function Move<C>(s: Store<C>, bucket: string, src: string, dst: string): (r: Result<Store<C>, StoreError>)
    ensures r.Failure? <==> BlobId(bucket, src) !in s
    ensures r.Success? ==> BlobId(bucket, dst) in r.value && r.value[BlobId(bucket, dst)] == s[BlobId(bucket, src)]
    ensures r.Success? && src != dst ==> BlobId(bucket, src) !in r.value
    ensures r.Success? ==> forall x :: x != BlobId(bucket, src) && x != BlobId(bucket, dst) ==>
      (x in r.value <==> x in s) && (x in s ==> r.value[x] == s[x])
  {
    var from := BlobId(bucket, src);
    if from !in s then Failure(NotFound(from))
    else
      var copied := s[BlobId(bucket, dst) := s[from]];
      Success(if src == dst then copied else map x | x in copied && x != from :: copied[x])
  }

  /** Moving is destructive: once a move between distinct names succeeded, the
      same move fails. */
  lemma MoveNotRepeatable<C>(s: Store<C>, bucket: string, src: string, dst: string)
    requires src != dst
    requires Move(s, bucket, src, dst).Success?
    ensures Move(Move(s, bucket, src, dst).value, bucket, src, dst).Failure?
  {
  }

  /** Moving back undoes a move onto a free name. */
  lemma MoveBackRestores<C>(s: Store<C>, bucket: string, src: string, dst: string)
    requires src != dst
    requires BlobId(bucket, src) in s && BlobId(bucket, dst) !in s
    ensures Move(Move(s, bucket, src, dst).value, bucket, dst, src) == Success(s)
  {
    var t := Move(s, bucket, src, dst).value;
    var u := Move(t, bucket, dst, src).value;
    assert u == s;
  }
}

=== FILE: csv.dfy ===
/** `df.to_csv(index=False)` at the level the load step cares about: one header
    line followed by one record per frame row, in frame order. */
module Csv {
  import opened Normalizer
  import opened Loader

  datatype Line = Header | Record(row: Row)

  type Content = seq<Line>

  function Records(rows: seq<Row>): seq<Line>
  {
    seq(|rows|, k requires 0 <= k < |rows| => Record(rows[k]))
  }

  /** One header line, then nothing but records, carrying exactly `rows`. */
  function ToCsv(rows: seq<Row>): (c: Content)
    ensures |c| == |rows| + 1 && c[0] == Header
    ensures forall k :: 1 <= k < |c| ==> c[k].Record?
    ensures RowsOf(c) == rows
  {
    var c := [Header] + Records(rows);
    assert c[1..] == Records(rows);
    RowsOfRecords(rows);
    c
  }

  /** The rows a sequence of loaded lines carries, in order. */
  function RowsOf(lines: seq<Line>): seq<Row>
  {
    if |lines| == 0 then []
    else (if lines[0].Record? then [lines[0].row] else []) + RowsOf(lines[1..])
  }

  lemma {:induction false} RowsOfRecords(rows: seq<Row>)
    ensures RowsOf(Records(rows)) == rows
  {
    if |rows| > 0 {
      assert Records(rows)[1..] == Records(rows[1..]);
      RowsOfRecords(rows[1..]);
      assert rows == [rows[0]] + rows[1..];
    }
  }

  /** Serialising a frame and skipping the header, as the load job does, gives
      back exactly the frame's rows in order: nothing lost, nothing added. */
  lemma CsvRoundTrip(rows: seq<Row>)
    ensures SkipHeader(ToCsv(rows)) == Records(rows)
    ensures RowsOf(SkipHeader(ToCsv(rows))) == rows
  {
    assert ToCsv(rows)[1..] == Records(rows);
    RowsOfRecords(rows);
  }

  lemma {:induction false} RowsOfAppend(a: seq<Line>, b: seq<Line>)
    ensures RowsOf(a + b) == RowsOf(a) + RowsOf(b)
  {
    if |a| > 0 {
      assert (a + b)[1..] == a[1..] + b;
      RowsOfAppend(a[1..], b);
    } else {
      assert a + b == b;
    }
  }
}

=== FILE: dates.dfy ===
/** Calendar dates and the `YYYYMMDD` parsing done by
    `pd.to_datetime(df.date, format='%Y%m%d')`. */
module Dates {
  import opened Wrappers
  import opened Strings

  datatype Date = Date(year: nat, month: nat, day: nat)

  predicate IsLeapYear(y: nat) {
    y % 4 == 0 && (y % 100 != 0 || y % 400 == 0)
  }

  function DaysInMonth(y: nat, m: nat): nat
    requires 1 <= m <= 12
  {
    if m == 2 then (if IsLeapYear(y) then 29 else 28)
    else if m == 4 || m == 6 || m == 9 || m == 11 then 30
    else 31
  }

  /** A real day of the proleptic Gregorian calendar with a four-digit year. */
  predicate IsCalendarDate(d: Date) {
    1 <= d.year <= 9999 && 1 <= d.month <= 12 && 1 <= d.day <= DaysInMonth(d.year, d.month)
  }

  /** `YYYYMMDD` read as a number; orders calendar dates chronologically. */
  function DayNumber(d: Date): nat {
    d.year * 10000 + d.month * 100 + d.day
  }

  /** First and last whole days a pandas nanosecond `Timestamp` can hold;
      `to_datetime` raises on dates outside them. */
  const FirstTimestampDay := Date(1677, 9, 22)
  const LastTimestampDay := Date(2262, 4, 11)

  predicate Representable(d: Date) {
    IsCalendarDate(d) && DayNumber(FirstTimestampDay) <= DayNumber(d) <= DayNumber(LastTimestampDay)
  }

  /** The `%Y%m%d` rendering of a date. */
  function FormatYmd(d: Date): string {
    FixedDigits(d.year, 4) + FixedDigits(d.month, 2) + FixedDigits(d.day, 2)
  }

  /** Parses one date cell. `None` is the error `to_datetime` raises: the cell is
      not eight digits, not a calendar date, or outside the `Timestamp` range. */
  function ParseYmd(s: string): (r: Option<Date>)
    ensures r.Some? ==> Representable(r.value) && FormatYmd(r.value) == s
  {
    if |s| == 8 && AllDigits(s) then
      var d := Date(DigitsValue(s[..4]), DigitsValue(s[4..6]), DigitsValue(s[6..]));
      if Representable(d) then
        FixedDigitsOfValue(s[..4]);
        FixedDigitsOfValue(s[4..6]);
        FixedDigitsOfValue(s[6..]);
        assert s == s[..4] + s[4..6] + s[6..];
        Some(d)
      else None
    else None
  }

  /** Every representable date survives formatting and re-parsing. */
  lemma ParseFormatRoundTrip(d: Date)
    requires Representable(d)
    ensures ParseYmd(FormatYmd(d)) == Some(d)
  {
    var s := FormatYmd(d);
    FixedDigitsShape(d.year, 4);
    FixedDigitsShape(d.month, 2);
    FixedDigitsShape(d.day, 2);
    assert s[..4] == FixedDigits(d.year, 4);
    assert s[4..6] == FixedDigits(d.month, 2);
    assert s[6..] == FixedDigits(d.day, 2);
    assert AllDigits(s);
  }

  /** A cell parses exactly when it is the rendering of a representable date. */
  lemma ParseYmdExactly(s: string)
    ensures ParseYmd(s).Some? <==> exists d :: Representable(d) && FormatYmd(d) == s
  {
    if d :| Representable(d) && FormatYmd(d) == s {
      ParseFormatRoundTrip(d);
    }
  }
}

=== FILE: flask_app.dfy ===
/** The second front-end's `/preview`: the file is read as CSV or as a workbook
    depending on its name, and an upload is attempted when the form's submit
    button was pressed and nothing raised before it. */
module FlaskApp {
  import opened Wrappers
  import opened Strings
  import opened Normalizer
  import opened Requests

  /** The dataframe bound to `df`. */
  datatype Frame = CsvFrame(table: CsvTable) | ExcelFrame(rows: seq<Row>)

  datatype Page =
    | NoFileUploaded   // 'No file uploaded.', 400
    | PreviewPage(head: Frame)
    | ServerError      // `df` unbound at the render, or an uncaught exception

  /** The page, and whether the `upload_gcs` call was reached. */
  datatype Outcome = Outcome(page: Page, uploadAttempted: bool)

  /** The reading branch: the `csv` test first, then the `xls` test. `None`:
      neither branch ran and `df` stays unbound. */
  function ReadUpload(f: UploadedFile): (r: Option<Result<Frame, ParseError>>)
    ensures Contains(f.filename, "csv") ==> r == Some(Success(CsvFrame(f.table)))
    ensures r.None? <==> !Contains(f.filename, "csv") && !Contains(f.filename, "xls")
    ensures r.Some? && (r.value.Failure? || r.value.value.ExcelFrame?) ==>
      !Contains(f.filename, "csv") && Contains(f.filename, "xls")
  {
    if Contains(f.filename, "csv") then Some(Success(CsvFrame(f.table)))
    else if Contains(f.filename, "xls") then
      match Parse(f.workbook)
      case Success(rows) => Some(Success(ExcelFrame(rows)))
      case Failure(e) => Some(Failure(e))
    else None
  }

  function FrameHead(fr: Frame): Frame
  {
    match fr
    case CsvFrame(t) => CsvFrame(CsvTable(t.columns, Head(t.rows)))
    case ExcelFrame(rows) => ExcelFrame(Head(rows))
  }

  /** `/preview` on a POST. `submit` is the truth value of the form's
      `submit_button` field. The upload is reached when no exception was
      raised by the read, including when no reader ran at all. */
  function Preview(file: Option<UploadedFile>, submit: bool): (o: Outcome)
    ensures !FileGiven(file) ==> o == Outcome(NoFileUploaded, false)
    ensures o.uploadAttempted <==>
      FileGiven(file) && submit && !(ReadUpload(file.value).Some? && ReadUpload(file.value).value.Failure?)
    ensures o.page.PreviewPage? <==> FileGiven(file) && ReadUpload(file.value).Some? && ReadUpload(file.value).value.Success?
    ensures o.page.PreviewPage? ==> o.page.head == FrameHead(ReadUpload(file.value).value.value)
    ensures (FileGiven(file) && !Contains(file.value.filename, "csv") && Contains(file.value.filename, "xls") &&
             Parse(file.value.workbook).Success?) ==>
      o.page == PreviewPage(ExcelFrame(Head(Parse(file.value.workbook).value)))
  {
    if !FileGiven(file) then Outcome(NoFileUploaded, false)
    else
      var f := file.value;
      if f.filename == "" then Outcome(ServerError, false)
      else
        match ReadUpload(f)
        case Some(Failure(_)) => Outcome(ServerError, false)
        case Some(Success(fr)) => Outcome(PreviewPage(FrameHead(fr)), submit)
        case None => Outcome(ServerError, submit)
  }

  /** A name containing `csv` is read as CSV even when it also contains `xls`,
      and the CSV rows are shown as read: no scaling, no lower-casing, no date
      or column checks. */
  lemma CsvWinsAndIsUntouched(f: UploadedFile, submit: bool)
    requires Contains(f.filename, "csv")
    ensures Preview(Some(f), submit).page == PreviewPage(CsvFrame(CsvTable(f.table.columns, Head(f.table.rows))))
  {
  }

  /** The spreadsheet branch is `parse_refunds_data`: it yields a frame exactly
      when the workbook is accepted, and that frame is the parser's rows. */
  lemma ExcelBranchIsParse(f: UploadedFile)
    requires !Contains(f.filename, "csv") && Contains(f.filename, "xls")
    ensures ReadUpload(f).Some?
    ensures ReadUpload(f).value.Success? <==> Accepts(f.workbook)
    ensures ReadUpload(f).value.Success? ==> ReadUpload(f).value.value == ExcelFrame(Parse(f.workbook).value)
  {
    ParseAcceptsExactly(f.workbook);
  }

  /** The read produced a spreadsheet frame whose row for sheet `i`, row `j`
      is normalised from that row's raw cells. */
  predicate RowNormalizedIn(read: Option<Result<Frame, ParseError>>, wb: Workbook, i: nat, j: nat)
    requires i < |wb| && j < |wb[i].rows|
  {
    match read
    case Some(Success(ExcelFrame(rows))) =>
      Offset(wb, i) + j < |rows| && NormalizedFrom(rows[Offset(wb, i) + j], wb[i], wb[i].rows[j])
    case _ => false
  }

  /** Through the spreadsheet branch, row `j` of sheet `i` is normalised from
      its raw cells: lower-cased sheet name as provider, amount times 100. */
  lemma ExcelBranchRow(f: UploadedFile, i: nat, j: nat)
    requires !Contains(f.filename, "csv") && Contains(f.filename, "xls")
    requires Accepts(f.workbook)
    requires i < |f.workbook| && j < |f.workbook[i].rows|
    ensures RowNormalizedIn(ReadUpload(f), f.workbook, i, j)
  {
    ExcelBranchIsParse(f);
    ParsedRowNormalizedIn(ReadUpload(f), f.workbook, i, j);
  }

  lemma ParsedRowNormalizedIn(read: Option<Result<Frame, ParseError>>, wb: Workbook, i: nat, j: nat)
    requires Parse(wb).Success? && read == Some(Success(ExcelFrame(Parse(wb).value)))
    requires i < |wb| && j < |wb[i].rows|
    ensures RowNormalizedIn(read, wb, i, j)
  {
    ParseRowAt(wb, i, j);
  }

  /** A name with neither `csv` nor `xls` binds no frame, yet the upload is
      still attempted when the submit button was pressed; the page then fails. */
  lemma UnknownNameStillAttemptsUpload(f: UploadedFile)
    requires f.filename != ""
    requires !Contains(f.filename, "csv") && !Contains(f.filename, "xls")
    ensures Preview(Some(f), true) == Outcome(ServerError, true)
  {
  }

  /** A workbook the parser rejects never reaches the upload. */
  lemma RejectedWorkbookNotUploaded(f: UploadedFile, submit: bool)
    requires f.filename != ""
    requires !Contains(f.filename, "csv") && Contains(f.filename, "xls")
    requires !Accepts(f.workbook)
    ensures Preview(Some(f), submit) == Outcome(ServerError, false)
  {
    ParseAcceptsExactly(f.workbook);
  }
}

=== FILE: loader.dfy ===
/** `blob_to_bq`: a CSV load job that appends a blob's lines, minus the first,
    to a warehouse table. Tables hold the loaded lines in load order. */
module Loader {
  import opened Wrappers
  import opened BlobStore

  type Warehouse<L> = map<string, seq<L>>

  datatype LoadError = SourceMissing(id: BlobId)

  /** `skip_leading_rows=1`: everything after the first line. */
  function SkipHeader<L>(c: seq<L>): (r: seq<L>)
    ensures |c| == 0 ==> r == []
    ensures |c| > 0 ==> c == [c[0]] + r
  {
    if |c| == 0 then [] else c[1..]
  }

  /** The table's rows so far; a table that does not exist yet is empty. */
  function TableRows<L>(wh: Warehouse<L>, table: string): seq<L>
  {
    if table in wh then wh[table] else []
  }

  /** Appends `lines` to `table`, creating it if needed; other tables are untouched. */
  function Append<L>(wh: Warehouse<L>, table: string, lines: seq<L>): (r: Warehouse<L>)
    ensures table in r && r[table] == TableRows(wh, table) + lines
    ensures forall t :: t != table ==> (t in r <==> t in wh) && (t in wh ==> r[t] == wh[t])
  {
    wh[table := TableRows(wh, table) + lines]
  }

  /** The load job of `blob_to_bq`: reads the blob at `gs://bucket/name` and
      appends its lines after the header to `table`. A missing blob fails the
      job and changes nothing. */
  function Load<L>(s: Store<seq<L>>, wh: Warehouse<L>, bucket: string, name: string, table: string)
    : (r: Result<Warehouse<L>, LoadError>)
    ensures r.Failure? <==> BlobId(bucket, name) !in s
    ensures r.Success? ==> TableRows(r.value, table) == TableRows(wh, table) + SkipHeader(s[BlobId(bucket, name)])
    ensures r.Success? ==> forall t :: t != table ==> TableRows(r.value, t) == TableRows(wh, t)
  {
    var id := BlobId(bucket, name);
    if id !in s then Failure(SourceMissing(id))
    else Success(Append(wh, table, SkipHeader(s[id])))
  }

  /** Loading is not exactly-once: a second load of the same blob appends its
      rows again. */
  lemma LoadTwiceDuplicates<L>(s: Store<seq<L>>, wh: Warehouse<L>, bucket: string, name: string, table: string)
    requires BlobId(bucket, name) in s
    ensures var once := Load(s, wh, bucket, name, table).value;
      var twice := Load(s, once, bucket, name, table).value;
      var body := SkipHeader(s[BlobId(bucket, name)]);
      TableRows(twice, table) == TableRows(wh, table) + body + body
  {
  }
}

=== FILE: naming.dfy ===
/** Month string and object names derived from it: `last_month()`, the staged
    and confirmed blob names and the warehouse table id. */
module Naming {
  import opened Strings

  /** The fields of `datetime.now()` the routes read. */
  datatype Clock = Clock(year: nat, month: nat)

  predicate IsDateTimeClock(now: Clock) {
    1 <= now.year <= 9999 && 1 <= now.month <= 12
  }

  /** `f"{now.year}{now.month-1 if now.month else 12}"`: the year followed by
      the unpadded previous month number. */
  function LastMonth(now: Clock): (m: string)
    ensures AllDigits(m)
    ensures StartsWith(m, NatToString(now.year)) && |NatToString(now.year)| < |m|
  {
    var mo := if now.month != 0 then now.month - 1 else 12;
    NatToStringShape(now.year);
    NatToStringShape(mo);
    NatToString(now.year) + NatToString(mo)
  }

  const ConfirmedStem := "refund_payments_"
  const StagingDir := "tmp/"
  const CsvExtension := ".csv"

  /** `f"refund_payments_{month}.csv"`. */
  function ConfirmedKey(m: string): string
  {
    ConfirmedStem + m + CsvExtension
  }

  /** `f"tmp/refund_payments_{month}.csv"`: the staged copy of the confirmed key. */
  function StagedKey(m: string): string
  {
    StagingDir + ConfirmedKey(m)
  }

  /** `f"{project}.archive.{os.path.splitext(filename)[0]}"`. */
  function TableId(project: string, m: string): string
  {
    project + ".archive." + SplitExtRoot(ConfirmedKey(m))
  }

  /** For a real clock the month part is `month - 1` written without padding:
      the `else 12` branch is never taken, January gives `0`, and the year is
      never decremented. The month takes one digit up to October and two
      after, so the result is five or six digits for four-digit years. */
  lemma {:induction false} LastMonthShape(now: Clock)
    requires IsDateTimeClock(now)
    ensures var m := LastMonth(now);
      && AllDigits(m)
      && m[..|NatToString(now.year)|] == NatToString(now.year)
      && DigitsValue(m[|NatToString(now.year)|..]) == now.month - 1
      && (now.month == 1 ==> m == NatToString(now.year) + "0")
      && |m| == |NatToString(now.year)| + (if now.month <= 10 then 1 else 2)
      && (1000 <= now.year ==> 5 <= |m| <= 6)
  {
    var y := NatToString(now.year);
    var mo := NatToString(now.month - 1);
    NatToStringShape(now.year);
    NatToStringShape(now.month - 1);
    var m := LastMonth(now);
    assert m == y + mo;
    assert m[|y|..] == mo;
    if now.month - 1 < 10 {
      NatToStringLength(now.month - 1, 0);
    } else {
      NatToStringLength(now.month - 1, 1);
    }
    if 1000 <= now.year {
      NatToStringLength(now.year, 3);
    }
  }

  /** With four-digit years, distinct months give distinct strings, so two
      months never share a staged blob, a confirmed blob or a table. */
  lemma LastMonthInjective(a: Clock, b: Clock)
    requires IsDateTimeClock(a) && IsDateTimeClock(b)
    requires 1000 <= a.year && 1000 <= b.year
    requires LastMonth(a) == LastMonth(b)
    ensures a == b
  {
    NatToStringLength(a.year, 3);
    NatToStringLength(b.year, 3);
    var ya, yb := NatToString(a.year), NatToString(b.year);
    var ma, mb := NatToString(a.month - 1), NatToString(b.month - 1);
    assert LastMonth(a) == ya + ma && LastMonth(b) == yb + mb;
    assert ya == LastMonth(a)[..4] == LastMonth(b)[..4] == yb;
    assert ma == LastMonth(a)[4..] == LastMonth(b)[4..] == mb;
    NatToStringInjective(a.year, b.year);
    NatToStringInjective(a.month - 1, b.month - 1);
  }

  /** The staged key lives under `tmp/`, the confirmed key does not, and the
      staged key is the confirmed key behind that prefix. */
  lemma KeysSeparated(m: string)
    ensures StartsWith(StagedKey(m), StagingDir)
    ensures !StartsWith(ConfirmedKey(m), StagingDir)
    ensures StagedKey(m)[|StagingDir|..] == ConfirmedKey(m)
    ensures StagedKey(m) != ConfirmedKey(m)
  {
    assert ConfirmedKey(m)[0] == 'r';
    assert StagedKey(m)[0] == 't';
  }

  /** Different month strings name different blobs. */
  lemma ConfirmedKeyInjective(m1: string, m2: string)
    requires ConfirmedKey(m1) == ConfirmedKey(m2)
    ensures m1 == m2
  {
    var k := ConfirmedKey(m1);
    assert |m1| == |m2|;
    assert m1 == k[|ConfirmedStem|..|ConfirmedStem| + |m1|];
    assert m2 == ConfirmedKey(m2)[|ConfirmedStem|..|ConfirmedStem| + |m2|];
  }

  /** For a month string without dots or slashes (every `LastMonth` value) the
      table id is `<project>.archive.refund_payments_<month>`. */
  lemma TableIdShape(project: string, m: string)
    requires forall k :: 0 <= k < |m| ==> m[k] != '.' && m[k] != '/'
    ensures TableId(project, m) == project + ".archive." + ConfirmedStem + m
  {
    var root := ConfirmedStem + m;
    assert ConfirmedKey(m) == root + CsvExtension;
    SplitExtStripsSuffix(root, CsvExtension);
  }
}

=== FILE: normalizer.dfy ===
/** `parse_refunds_data`: a workbook of provider sheets becomes one frame of
    refund rows, tagged with the lower-cased sheet name as provider, amounts
    scaled by 100 and dates parsed from `YYYYMMDD`. */
module Normalizer {
  import opened Wrappers
  import opened Strings
  import opened Dates

  datatype Column = ColOrderId | ColProvider | ColDate | ColAmount | ColCountry

  /** The columns the final check insists on. */
  const RequiredColumns: set<Column> := {ColOrderId, ColProvider, ColDate, ColAmount, ColCountry}

  /** One decoded spreadsheet row; `None` is an empty cell. Amounts are the
      reader's numbers taken exactly. */
  datatype RawRow = RawRow(
    orderId: Option<string>,
    provider: Option<string>,
    date: Option<string>,
    amount: Option<real>,
    country: Option<string>)

  /** A sheet: its tab name, the columns its header declares, its rows in order. */
  datatype Sheet = Sheet(name: string, columns: set<Column>, rows: seq<RawRow>)

  /** The workbook as `read_excel(..., sheet_name=None)` yields it: sheets in tab order. */
  type Workbook = seq<Sheet>

  /** A row of the concatenated frame before normalisation, with the sheet it came from. */
  datatype Tagged = Tagged(sheet: string, cells: RawRow)

  /** A normalised refund row. */
  datatype Row = Row(
    provider: string,
    orderId: Option<string>,
    date: Date,
    amount: Option<real>,
    country: Option<string>)

  datatype ParseError =
    | NoSheets              // concatenating an empty mapping
    | NoAmountColumn        // `df.amount` on a frame without that column
    | NoDateColumn          // `df.date` on a frame without that column
    | BadDate(cell: string) // `to_datetime` rejects a cell
    | ProviderColumnClash   // a sheet's own `provider` column duplicates the tag column
    | NullDates             // "There are null dates in the data provided."
    | ExpectedFields        // "Expected fields order_id, provider, date, amount, country."

  /** Columns declared by at least one sheet. */
  function SheetColumns(wb: Workbook): set<Column>
  {
    if |wb| == 0 then {} else wb[0].columns + SheetColumns(wb[1..])
  }

  /** Columns of the concatenated frame: every sheet's columns plus the tag column. */
  function FrameColumns(wb: Workbook): set<Column>
  {
    SheetColumns(wb) + {ColProvider}
  }

  /** A row as it sits in the concatenated frame: cells of columns its own sheet
      does not declare are empty. */
  function Aligned(s: Sheet, r: RawRow): RawRow
  {
    RawRow(
      if ColOrderId in s.columns then r.orderId else None,
      if ColProvider in s.columns then r.provider else None,
      if ColDate in s.columns then r.date else None,
      if ColAmount in s.columns then r.amount else None,
      if ColCountry in s.columns then r.country else None)
  }

  function TagSheet(s: Sheet): seq<Tagged>
  {
    seq(|s.rows|, j requires 0 <= j < |s.rows| => Tagged(s.name, Aligned(s, s.rows[j])))
  }

  /** `pd.concat` over the sheets followed by `reset_index` and the rename of
      `level_0` to `provider`. */
  function Concat(wb: Workbook): (r: seq<Tagged>)
    ensures |r| == TotalRows(wb)
  {
    if |wb| == 0 then [] else TagSheet(wb[0]) + Concat(wb[1..])
  }

  function TotalRows(wb: Workbook): nat
  {
    if |wb| == 0 then 0 else |wb[0].rows| + TotalRows(wb[1..])
  }

  /** Index in the frame of the first row of sheet `i`. */
  function Offset(wb: Workbook, i: nat): nat
    requires i <= |wb|
  {
    TotalRows(wb[..i])
  }

  /** The frame's two-level index: which sheet, and which row of it, frame row `k` is. */
  function Locate(wb: Workbook, k: nat): (p: (nat, nat))
    requires k < TotalRows(wb)
    ensures p.0 < |wb| && p.1 < |wb[p.0].rows|
    ensures Offset(wb, p.0) + p.1 == k
  {
    if k < |wb[0].rows| then
      assert wb[..0] == [];
      (0, k)
    else
      var q := Locate(wb[1..], k - |wb[0].rows|);
      OffsetStep(wb, q.0 + 1);
      (q.0 + 1, q.1)
  }

  lemma OffsetStep(wb: Workbook, i: nat)
    requires 0 < i <= |wb|
    ensures Offset(wb, i) == |wb[0].rows| + Offset(wb[1..], i - 1)
  {
    assert wb[..i][1..] == wb[1..][..i - 1];
  }

  /** Concatenating two workbooks' frames is the frame of the joined workbook:
      sheets appear in workbook order. */
  lemma {:induction false} ConcatAppend(a: Workbook, b: Workbook)
    ensures Concat(a + b) == Concat(a) + Concat(b)
  {
    if |a| > 0 {
      assert (a + b)[1..] == a[1..] + b;
      ConcatAppend(a[1..], b);
    } else {
      assert a + b == b;
    }
  }

  /** Row `j` of sheet `i` sits at `Offset(wb, i) + j`, tagged with the sheet's name. */
  lemma {:induction false} ConcatAt(wb: Workbook, i: nat, j: nat)
    requires i < |wb| && j < |wb[i].rows|
    ensures Offset(wb, i) + j < |Concat(wb)|
    ensures Concat(wb)[Offset(wb, i) + j] == Tagged(wb[i].name, Aligned(wb[i], wb[i].rows[j]))
  {
    if i == 0 {
      assert wb[..0] == [];
    } else {
      OffsetStep(wb, i);
      ConcatAt(wb[1..], i - 1, j);
    }
  }

  /** The texts `to_datetime` reads as a missing timestamp rather than parsing
      them against the format. */
  const NullSpellings: set<string> := {"NaT", "nat", "NAT", "nan", "NaN", "NAN"}

  /** The cell becomes NaT: it is empty or holds one of the null spellings. */
  predicate DateBlank(t: Tagged) {
    t.cells.date.None? || t.cells.date.value in NullSpellings
  }

  /** The date cell of a frame row, as `to_datetime` turns it into a timestamp or NaT. */
  function CellDate(t: Tagged): (r: Result<Option<Date>, ParseError>)
    ensures r.Success? <==> DateParses(t)
    ensures r.Success? ==> (r.value.Some? <==> !DateBlank(t))
    ensures r.Success? && r.value.Some? ==> t.cells.date == Some(FormatYmd(r.value.value))
    ensures r.Failure? ==> t.cells.date.Some? && r.error == BadDate(t.cells.date.value)
  {
    match t.cells.date
    case None => Success(None)
    case Some(s) =>
      if s in NullSpellings then Success(None)
      else
        match ParseYmd(s)
        case None => Failure(BadDate(s))
        case Some(d) => Success(Some(d))
  }

  /** The cell becomes NaT or a parseable date. */
  predicate DateParses(t: Tagged) {
    DateBlank(t) || ParseYmd(t.cells.date.value).Some?
  }

  /** `ds` is the converted column of `ts`: NaT exactly for the blank cells,
      and otherwise the date each cell spells. */
  predicate DatesOfCells(ts: seq<Tagged>, ds: seq<Option<Date>>) {
    && |ds| == |ts|
    && forall k :: 0 <= k < |ts| ==>
      (ds[k].Some? <==> !DateBlank(ts[k])) &&
      (ds[k].Some? ==> ts[k].cells.date == Some(FormatYmd(ds[k].value)))
  }

  /** Cell `k` is the first one that does not convert, and `e` names it. */
  predicate FirstBadCell(ts: seq<Tagged>, k: int, e: ParseError) {
    && 0 <= k < |ts| && !DateParses(ts[k])
    && e == BadDate(ts[k].cells.date.value)
    && forall k' :: 0 <= k' < k ==> DateParses(ts[k'])
  }

  /** `pd.to_datetime(df.date, format='%Y%m%d')` over the whole column: the first
      unparseable cell raises; empty cells become NaT. */
  function ParseDates(ts: seq<Tagged>): (r: Result<seq<Option<Date>>, ParseError>)
    ensures r.Success? <==> forall k :: 0 <= k < |ts| ==> DateParses(ts[k])
    ensures r.Success? ==> DatesOfCells(ts, r.value)
    ensures r.Failure? ==> exists k :: FirstBadCell(ts, k, r.error)
  {
    if |ts| == 0 then Success([])
    else
      match CellDate(ts[0])
      case Failure(e) =>
        assert FirstBadCell(ts, 0, e);
        Failure(e)
      case Success(d) =>
        assert DateParses(ts[0]);
        match ParseDates(ts[1..])
        case Failure(e) =>
          assert exists k :: FirstBadCell(ts, k, e) by {
            var k :| FirstBadCell(ts[1..], k, e);
            assert forall k' :: 1 <= k' < |ts| ==> ts[k'] == ts[1..][k' - 1];
            assert FirstBadCell(ts, k + 1, e);
          }
          Failure(e)
        case Success(ds) =>
          assert forall k :: 1 <= k < |ts| ==> ts[k] == ts[1..][k - 1];
          Success([d] + ds)
  }

  function Scale(a: Option<real>): Option<real>
  {
    match a
    case None => None
    case Some(x) => Some(x * 100.0)
  }

  function NormalizeRow(t: Tagged, d: Date): Row
  {
    Row(Lower(t.sheet), t.cells.orderId, d, Scale(t.cells.amount), t.cells.country)
  }

  /** `parse_refunds_data`, step for step: concatenate, scale amounts, parse
      dates, lower-case providers, then reject null dates, then reject missing
      columns. */
  function Parse(wb: Workbook): (r: Result<seq<Row>, ParseError>)
    ensures r.Success? ==> |r.value| == TotalRows(wb) == |Concat(wb)|
    ensures r.Success? ==> RequiredColumns <= FrameColumns(wb)
    ensures r.Success? ==> forall k :: 0 <= k < |r.value| ==>
      Concat(wb)[k].cells.date == Some(FormatYmd(r.value[k].date)) &&
      r.value[k].provider == Lower(Concat(wb)[k].sheet)
  {
    if |wb| == 0 then Failure(NoSheets)
    else if ColAmount !in SheetColumns(wb) then Failure(NoAmountColumn)
    else if ColDate !in SheetColumns(wb) then Failure(NoDateColumn)
    else
      var frame := Concat(wb);
      match ParseDates(frame)
      case Failure(e) => Failure(e)
      case Success(dates) =>
        if ColProvider in SheetColumns(wb) then Failure(ProviderColumnClash)
        else if exists k :: 0 <= k < |dates| && dates[k].None? then Failure(NullDates)
        else if !(RequiredColumns <= FrameColumns(wb)) then Failure(ExpectedFields)
        else
          assert forall k :: 0 <= k < |dates| ==> dates[k].Some?;
          Success(seq(|frame|, k requires 0 <= k < |frame| => NormalizeRow(frame[k], dates[k].value)))
  }

  /** Row `r` of sheet `s` carries a date cell that parses. */
  predicate ValidDateCell(s: Sheet, r: RawRow) {
    ColDate in s.columns && r.date.Some? && ParseYmd(r.date.value).Some?
  }

  /** Row `r` of sheet `s` has no date in the frame: the sheet lacks the column,
      or the cell is empty or a null spelling. */
  predicate EmptyDateCell(s: Sheet, r: RawRow) {
    ColDate !in s.columns || r.date.None? || r.date.value in NullSpellings
  }

  /** Every date cell the frame holds for the workbook is empty or parses. */
  predicate DatesParse(wb: Workbook) {
    forall i, j :: 0 <= i < |wb| && 0 <= j < |wb[i].rows| ==>
      EmptyDateCell(wb[i], wb[i].rows[j]) || ValidDateCell(wb[i], wb[i].rows[j])
  }

  /** Every row of every sheet has a parseable date. */
  predicate AllDatesValid(wb: Workbook) {
    forall i, j :: 0 <= i < |wb| && 0 <= j < |wb[i].rows| ==> ValidDateCell(wb[i], wb[i].rows[j])
  }

  /** What the parser accepts, stated on the sheets rather than on the frame.
      A column may be missing from some sheets as long as one sheet declares it. */
  predicate Accepts(wb: Workbook) {
    && |wb| > 0
    && RequiredColumns - {ColProvider} <= SheetColumns(wb)
    && ColProvider !in SheetColumns(wb)
    && AllDatesValid(wb)
  }

  lemma AlignedDate(s: Sheet, r: RawRow)
    ensures DateParses(Tagged(s.name, Aligned(s, r))) <==> EmptyDateCell(s, r) || ValidDateCell(s, r)
    ensures !DateBlank(Tagged(s.name, Aligned(s, r))) <==> !EmptyDateCell(s, r)
  {
    NullSpellingsDoNotParse();
  }

  /** No null spelling is also a date in the eight-digit form. */
  lemma NullSpellingsDoNotParse()
    ensures forall c :: c in NullSpellings ==> ParseYmd(c).None?
  {
  }

  /** The frame row at index `k`, read back in sheet coordinates. */
  lemma FrameRow(wb: Workbook, k: nat) returns (i: nat, j: nat)
    requires k < |Concat(wb)|
    ensures i < |wb| && j < |wb[i].rows|
    ensures Concat(wb)[k] == Tagged(wb[i].name, Aligned(wb[i], wb[i].rows[j]))
  {
    var p := Locate(wb, k);
    i, j := p.0, p.1;
    ConcatAt(wb, i, j);
  }

  lemma SheetDatesToFrame(wb: Workbook)
    requires DatesParse(wb)
    ensures forall k :: 0 <= k < |Concat(wb)| ==> DateParses(Concat(wb)[k])
  {
    forall k | 0 <= k < |Concat(wb)|
      ensures DateParses(Concat(wb)[k])
    {
      var i, j := FrameRow(wb, k);
      AlignedDate(wb[i], wb[i].rows[j]);
    }
  }

  lemma ValidDatesToFrame(wb: Workbook)
    requires AllDatesValid(wb)
    ensures forall k :: 0 <= k < |Concat(wb)| ==> DateParses(Concat(wb)[k]) && !DateBlank(Concat(wb)[k])
  {
    forall k | 0 <= k < |Concat(wb)|
      ensures DateParses(Concat(wb)[k]) && !DateBlank(Concat(wb)[k])
    {
      var i, j := FrameRow(wb, k);
      AlignedDate(wb[i], wb[i].rows[j]);
    }
  }

  lemma FrameDatesToValid(wb: Workbook)
    requires forall k :: 0 <= k < |Concat(wb)| ==> DateParses(Concat(wb)[k]) && !DateBlank(Concat(wb)[k])
    ensures AllDatesValid(wb)
  {
    forall i, j | 0 <= i < |wb| && 0 <= j < |wb[i].rows|
      ensures ValidDateCell(wb[i], wb[i].rows[j])
    {
      ConcatAt(wb, i, j);
      AlignedDate(wb[i], wb[i].rows[j]);
      var k := Offset(wb, i) + j;
      assert DateParses(Concat(wb)[k]) && !DateBlank(Concat(wb)[k]);
    }
  }

  /** The parse succeeds exactly on the workbooks `Accepts` describes. */
  lemma ParseAcceptsExactly(wb: Workbook)
    ensures Parse(wb).Success? <==> Accepts(wb)
  {
    if |wb| > 0 {
      var ds := ParseDates(Concat(wb));
      if Accepts(wb) {
        ValidDatesToFrame(wb);
        assert ds.Success?;
        assert !exists k :: 0 <= k < |ds.value| && ds.value[k].None?;
      }
      if Parse(wb).Success? {
        assert ds.Success?;
        FrameDatesToValid(wb);
      }
    }
  }

  /** `row` is what normalisation makes of `raw` from sheet `s`: provider is
      the lower-cased sheet name, the date is the one its cell spells, the
      amount is scaled by 100, and order id and country pass through (empty
      when the sheet lacks the column). */
  predicate NormalizedFrom(row: Row, s: Sheet, raw: RawRow) {
    && row.provider == Lower(s.name)
    && ColDate in s.columns && raw.date == Some(FormatYmd(row.date))
    && row.amount == (if ColAmount in s.columns && raw.amount.Some? then Some(raw.amount.value * 100.0) else None)
    && row.orderId == (if ColOrderId in s.columns then raw.orderId else None)
    && row.country == (if ColCountry in s.columns then raw.country else None)
  }

  /** On success, row `j` of sheet `i` becomes frame row `Offset(wb, i) + j`,
      normalised from its raw cells. */
  lemma ParseRowAt(wb: Workbook, i: nat, j: nat)
    requires Parse(wb).Success?
    requires i < |wb| && j < |wb[i].rows|
    ensures Offset(wb, i) + j < |Parse(wb).value|
    ensures NormalizedFrom(Parse(wb).value[Offset(wb, i) + j], wb[i], wb[i].rows[j])
  {
    ConcatAt(wb, i, j);
    var d := ParseValueAt(wb, Offset(wb, i) + j);
    NormalizeAligned(wb[i], wb[i].rows[j], d);
  }

  /** Normalising a frame row whose date cell spells `d` gives a row
      `NormalizedFrom` the raw cells of its sheet. */
  lemma NormalizeAligned(s: Sheet, raw: RawRow, d: Date)
    requires Aligned(s, raw).date == Some(FormatYmd(d))
    ensures NormalizedFrom(NormalizeRow(Tagged(s.name, Aligned(s, raw)), d), s, raw)
  {
  }

  /** On success, frame row `k` is normalised with the date its cell spells. */
  lemma ParseValueAt(wb: Workbook, k: nat) returns (d: Date)
    requires Parse(wb).Success? && k < |Concat(wb)|
    ensures Concat(wb)[k].cells.date == Some(FormatYmd(d))
    ensures Parse(wb).value[k] == NormalizeRow(Concat(wb)[k], d)
  {
    var frame := Concat(wb);
    var ds := ParseDates(frame);
    assert ds.Success?;
    assert ds.value[k].Some?;
    d := ds.value[k].value;
  }

  /** A `BadDate` error names a cell of some sheet that does not parse. */
  lemma BadDateNamesCell(wb: Workbook, c: string)
    requires Parse(wb) == Failure(BadDate(c))
    ensures exists i, j ::
      (0 <= i < |wb| && 0 <= j < |wb[i].rows| &&
       ColDate in wb[i].columns && wb[i].rows[j].date == Some(c) &&
       c !in NullSpellings && ParseYmd(c).None?)
  {
    var frame := Concat(wb);
    var ds := ParseDates(frame);
    var k :| FirstBadCell(frame, k, ds.error);
    var i, j := FrameRow(wb, k);
    assert wb[i].rows[j].date == Some(c);
  }

  /** The null-date check runs before the column check: with every present date
      parseable and some date missing, the error is `NullDates` even when
      `order_id` or `country` is missing everywhere. */
  lemma NullDatesBeforeColumns(wb: Workbook, i: nat, j: nat)
    requires |wb| > 0 && ColAmount in SheetColumns(wb) && ColDate in SheetColumns(wb)
    requires ColProvider !in SheetColumns(wb)
    requires DatesParse(wb)
    requires i < |wb| && j < |wb[i].rows| && EmptyDateCell(wb[i], wb[i].rows[j])
    ensures Parse(wb) == Failure(NullDates)
  {
    SheetDatesToFrame(wb);
    var frame := Concat(wb);
    var ds := ParseDates(frame);
    assert ds.Success?;
    ConcatAt(wb, i, j);
    var k := Offset(wb, i) + j;
    assert DateBlank(frame[k]);
    assert ds.value[k].None?;
  }

  /** The conditions under which the column check is reached and fails. */
  predicate ExpectedFieldsCase(wb: Workbook) {
    && |wb| > 0
    && ColAmount in SheetColumns(wb) && ColDate in SheetColumns(wb)
    && ColProvider !in SheetColumns(wb)
    && AllDatesValid(wb)
    && (ColOrderId !in SheetColumns(wb) || ColCountry !in SheetColumns(wb))
  }

  lemma ExpectedFieldsIf(wb: Workbook)
    requires ExpectedFieldsCase(wb)
    ensures Parse(wb) == Failure(ExpectedFields)
  {
    RequiredInFrame(wb);
    var ds := ParseDates(Concat(wb));
    ValidDatesToFrame(wb);
    assert ds.Success?;
    assert !exists k :: 0 <= k < |ds.value| && ds.value[k].None?;
  }

  lemma ExpectedFieldsOnlyIf(wb: Workbook)
    requires Parse(wb) == Failure(ExpectedFields)
    ensures ExpectedFieldsCase(wb)
  {
    RequiredInFrame(wb);
    var ds := ParseDates(Concat(wb));
    assert ds.Success?;
    assert forall k :: 0 <= k < |ds.value| ==> ds.value[k].Some?;
    FrameDatesToValid(wb);
  }

  /** "Expected fields" is raised exactly when everything before it passed and
      `order_id` or `country` is declared by no sheet. */
  lemma ExpectedFieldsExactly(wb: Workbook)
    ensures Parse(wb) == Failure(ExpectedFields) <==>
      && |wb| > 0
      && ColAmount in SheetColumns(wb) && ColDate in SheetColumns(wb)
      && ColProvider !in SheetColumns(wb)
      && AllDatesValid(wb)
      && (ColOrderId !in SheetColumns(wb) || ColCountry !in SheetColumns(wb))
  {
    if ExpectedFieldsCase(wb) {
      ExpectedFieldsIf(wb);
    }
    if Parse(wb) == Failure(ExpectedFields) {
      ExpectedFieldsOnlyIf(wb);
    }
  }

  lemma RequiredInFrame(wb: Workbook)
    ensures RequiredColumns <= FrameColumns(wb) <==>
      ColOrderId in SheetColumns(wb) && ColDate in SheetColumns(wb) &&
      ColAmount in SheetColumns(wb) && ColCountry in SheetColumns(wb)
  {
  }

}

=== FILE: refunds_app.dfy ===
/** The routes of the refunds app: `/preview` stages a parsed workbook under
    `tmp/`, `/sent` promotes the staged blob and loads it, `/cancel` deletes
    everything under `tmp/` in the sandbox bucket. */
module RefundsApp {
  import opened Wrappers
  import opened Strings
  import opened Normalizer
  import opened Naming
  import opened BlobStore
  import opened Loader
  import opened Csv
  import opened Requests

  /** The bucket `/cancel` names literally; the other routes use `Env.bucket`. */
  const SandboxBucket := "madecom-dev-tommy-watts-sandbox"

  /** `os.environ['BUCKET']` and `os.environ['BIGQUERY_PROJECT']`. */
  datatype Env = Env(bucket: string, project: string)

  /** Everything the routes change: the object store and the warehouse. */
  datatype System = System(store: Store<Content>, warehouse: Warehouse<Line>)

  /** A `/preview` form post: the file field and the `filename` text field. */
  datatype PreviewRequest = PreviewRequest(file: Option<UploadedFile>, filename: Option<string>)

  datatype Page =
    | PreviewPage(head: seq<Row>, filename: string)
    | RedirectToSent(filename: string)
    | SentPage
    | IndexPage
    | ServerError   // an exception escaped the view, or the view returned nothing

  datatype Step = Step(sys: System, page: Page)

  function StagedBlob(env: Env, now: Clock): BlobId
  {
    BlobId(env.bucket, StagedKey(LastMonth(now)))
  }

  function ConfirmedBlob(env: Env, now: Clock): BlobId
  {
    BlobId(env.bucket, ConfirmedKey(LastMonth(now)))
  }

  function MonthTable(env: Env, now: Clock): string
  {
    TableId(env.project, LastMonth(now))
  }

  /** The workbook of the request parses: the only case in which `df` is bound
      when the upload line runs. */
  predicate Parses(req: PreviewRequest) {
    FileGiven(req.file) && Contains(req.file.value.filename, "xls") && Parse(req.file.value.workbook).Success?
  }

  /** `/preview`. A file whose name contains `xls` is parsed; only a successful
      parse reaches the upload of its CSV to the staged name (otherwise `df` is
      unbound and the view fails). Without a file, a non-empty `filename`
      field redirects to `/sent`. The warehouse is never touched. */
  function Preview(sys: System, env: Env, now: Clock, req: PreviewRequest): (st: Step)
    ensures st.sys.warehouse == sys.warehouse
    ensures st.page.PreviewPage? <==> Parses(req)
    ensures st.sys != sys ==> Parses(req)
    ensures Parses(req) ==>
      st.sys.store == Upload(sys.store, StagedBlob(env, now), ToCsv(Parse(req.file.value.workbook).value))
    ensures Parses(req) ==>
      st.page == PreviewPage(Head(Parse(req.file.value.workbook).value), req.file.value.filename)
  {
    if FileGiven(req.file) then
      var f := req.file.value;
      if Contains(f.filename, "xls") then
        match Parse(f.workbook)
        case Success(rows) =>
          Step(System(Upload(sys.store, StagedBlob(env, now), ToCsv(rows)), sys.warehouse),
               PreviewPage(Head(rows), f.filename))
        case Failure(_) => Step(sys, ServerError)
      else Step(sys, ServerError)
    else if req.filename.Some? && req.filename.value != "" then Step(sys, RedirectToSent(req.filename.value))
    else Step(sys, ServerError)
  }

  /** `/sent`: rename the staged blob to its confirmed name and, only if that
      worked, load the confirmed blob into the month's table. Failures are
      swallowed and the page renders either way. */
  function Sent(sys: System, env: Env, now: Clock): (st: Step)
    ensures st.page == SentPage
    ensures StagedBlob(env, now) !in sys.store ==> st.sys == sys
  {
    var m := LastMonth(now);
    var name := ConfirmedKey(m);
    match Move(sys.store, env.bucket, StagedKey(m), name)
    case Failure(_) => Step(sys, SentPage)
    case Success(moved) =>
      match Load(moved, sys.warehouse, env.bucket, name, TableId(env.project, m))
      case Failure(_) => Step(System(moved, sys.warehouse), SentPage)
      case Success(wh) => Step(System(moved, wh), SentPage)
  }

  /** `/cancel`: delete every blob under `tmp/` in the sandbox bucket. */
  function Cancel(sys: System): (st: Step)
    ensures st.page == IndexPage
    ensures st.sys.warehouse == sys.warehouse
    ensures forall x :: x in st.sys.store <==> x in sys.store && !Under(x, SandboxBucket, StagingDir)
    ensures forall x :: x in st.sys.store ==> st.sys.store[x] == sys.store[x]
  {
    Step(System(DeletePrefix(sys.store, SandboxBucket, StagingDir), sys.warehouse), IndexPage)
  }

  /** When a blob is staged, `/sent` moves it to the confirmed name, removes
      the staged name, leaves every other blob and its content as it was, and appends the staged lines
      after the header to the month's table and to no other table. */
  lemma SentPromotesAndLoads(sys: System, env: Env, now: Clock)
    requires StagedBlob(env, now) in sys.store
    ensures var st := Sent(sys, env, now).sys;
      var c := sys.store[StagedBlob(env, now)];
      && ConfirmedBlob(env, now) in st.store && st.store[ConfirmedBlob(env, now)] == c
      && StagedBlob(env, now) !in st.store
      && (forall x :: x != StagedBlob(env, now) && x != ConfirmedBlob(env, now) ==>
            (x in st.store <==> x in sys.store) && (x in sys.store ==> st.store[x] == sys.store[x]))
      && TableRows(st.warehouse, MonthTable(env, now)) == TableRows(sys.warehouse, MonthTable(env, now)) + SkipHeader(c)
      && (forall t :: t != MonthTable(env, now) ==> TableRows(st.warehouse, t) == TableRows(sys.warehouse, t))
  {
    KeysSeparated(LastMonth(now));
  }

  /** Confirmation is not repeatable: a second `/sent` for the same month finds
      nothing staged and changes nothing, so the rows are loaded once. */
  lemma SentTwiceLoadsOnce(sys: System, env: Env, now: Clock)
    ensures var once := Sent(sys, env, now).sys;
      Sent(once, env, now).sys == once
  {
    var once := Sent(sys, env, now).sys;
    KeysSeparated(LastMonth(now));
    if StagedBlob(env, now) in sys.store {
      SentPromotesAndLoads(sys, env, now);
    }
    assert StagedBlob(env, now) !in once.store;
  }

  /** When the configured bucket is the sandbox bucket, cancelling before
      confirming leaves nothing to move: `/sent` then loads nothing. */
  lemma CancelThenSentLoadsNothing(sys: System, env: Env, now: Clock)
    requires env.bucket == SandboxBucket
    ensures var cancelled := Cancel(sys).sys;
      Sent(cancelled, env, now).sys == cancelled
      && Sent(cancelled, env, now).sys.warehouse == sys.warehouse
  {
    KeysSeparated(LastMonth(now));
    assert Under(StagedBlob(env, now), SandboxBucket, StagingDir);
  }

  /** When the configured bucket is another bucket, `/cancel` does not touch it:
      a staged submission survives and `/sent` still loads it. */
  lemma CancelMissesOtherBucket(sys: System, env: Env, now: Clock)
    requires env.bucket != SandboxBucket
    ensures forall x: BlobId :: x.bucket == env.bucket ==>
      (x in Cancel(sys).sys.store <==> x in sys.store)
    ensures StagedBlob(env, now) in sys.store ==> StagedBlob(env, now) in Cancel(sys).sys.store
    ensures StagedBlob(env, now) in sys.store ==>
      var st := Sent(Cancel(sys).sys, env, now).sys;
      && ConfirmedBlob(env, now) in st.store
      && st.store[ConfirmedBlob(env, now)] == sys.store[StagedBlob(env, now)]
      && TableRows(st.warehouse, MonthTable(env, now)) ==
         TableRows(sys.warehouse, MonthTable(env, now)) + SkipHeader(sys.store[StagedBlob(env, now)])
  {
    if StagedBlob(env, now) in sys.store {
      SentPromotesAndLoads(Cancel(sys).sys, env, now);
    }
  }

  /** Confirmed blobs are outside `tmp/`, so `/cancel` keeps every one of them. */
  lemma CancelKeepsConfirmed(sys: System, m: string)
    requires BlobId(SandboxBucket, ConfirmedKey(m)) in sys.store
    ensures BlobId(SandboxBucket, ConfirmedKey(m)) in Cancel(sys).sys.store
  {
    KeysSeparated(m);
  }

  /** Preview followed by confirmation: the month's table gains exactly the
      parsed rows, in order, and the confirmed blob holds their CSV. */
  lemma PreviewThenSent(sys: System, env: Env, now: Clock, req: PreviewRequest)
    requires Parses(req)
    ensures var rows := Parse(req.file.value.workbook).value;
      var staged := Preview(sys, env, now, req).sys;
      var done := Sent(staged, env, now).sys;
      && done.store[ConfirmedBlob(env, now)] == ToCsv(rows)
      && StagedBlob(env, now) !in done.store
      && TableRows(done.warehouse, MonthTable(env, now)) == TableRows(sys.warehouse, MonthTable(env, now)) + Records(rows)
      && RowsOf(TableRows(done.warehouse, MonthTable(env, now))) == RowsOf(TableRows(sys.warehouse, MonthTable(env, now))) + rows
  {
    var rows := Parse(req.file.value.workbook).value;
    var staged := Preview(sys, env, now, req).sys;
    SentPromotesAndLoads(staged, env, now);
    CsvRoundTrip(rows);
    RowsOfAppend(TableRows(sys.warehouse, MonthTable(env, now)), Records(rows));
  }

  /** Each request reads the clock itself. When `/sent` runs in a later month
      than the `/preview` that staged a file, it looks for another staged name:
      nothing is moved or loaded, and the earlier staged blob stays under
      `tmp/` with the frame's CSV. */
  lemma PreviewThenSentAcrossMonths(sys: System, env: Env, n1: Clock, n2: Clock, req: PreviewRequest)
    requires LastMonth(n1) != LastMonth(n2)
    requires StagedBlob(env, n2) !in sys.store
    ensures var staged := Preview(sys, env, n1, req).sys;
      Sent(staged, env, n2).sys == staged
    ensures Parses(req) ==>
      var staged := Preview(sys, env, n1, req).sys;
      && StagedBlob(env, n1) in staged.store
      && staged.store[StagedBlob(env, n1)] == ToCsv(Parse(req.file.value.workbook).value)
  {
    if StagedKey(LastMonth(n1)) == StagedKey(LastMonth(n2)) {
      assert ConfirmedKey(LastMonth(n1)) == StagedKey(LastMonth(n1))[|StagingDir|..];
      ConfirmedKeyInjective(LastMonth(n1), LastMonth(n2));
    }
  }

  /** The month's table is named after the confirmed blob without `.csv`. */
  lemma MonthTableName(env: Env, now: Clock)
    ensures MonthTable(env, now) == env.project + ".archive." + ConfirmedStem + LastMonth(now)
  {
    assert AllDigits(LastMonth(now));
    TableIdShape(env.project, LastMonth(now));
  }
}

=== FILE: requests.dfy ===
/** What the upload routes receive and render: the uploaded file, already
    decoded by the spreadsheet and CSV readers, and the frame preview. */
module Requests {
  import opened Wrappers
  import opened Normalizer

  /** A flat file as `pd.read_csv` yields it. */
  datatype CsvTable = CsvTable(columns: set<Column>, rows: seq<RawRow>)

  /** An uploaded file: its client-side name and what each reader makes of its bytes. */
  datatype UploadedFile = UploadedFile(filename: string, workbook: Workbook, table: CsvTable)

  /** Truth value of `request.files.get('file')`: present, and (as for a
      werkzeug `FileStorage`) with a non-empty file name. */
  predicate FileGiven(file: Option<UploadedFile>) {
    file.Some? && file.value.filename != ""
  }

  /** `df.head()`: the first five rows, or all of them when there are fewer. */
  function Head<T>(rows: seq<T>): (r: seq<T>)
    ensures |r| <= 5 && |r| <= |rows|
    ensures |r| == |rows| || |r| == 5
    ensures forall k :: 0 <= k < |r| ==> r[k] == rows[k]
  {
    if |rows| <= 5 then rows else rows[..5]
  }
}

=== FILE: strings.dfy ===
/** String helpers standing in for the Python built-ins the routes use:
    `str(int)`, `str.lower()`, the substring test `sub in s`, `str.startswith`
    and `os.path.splitext`. */
module Strings {

  predicate IsDigit(c: char) {
    '0' <= c <= '9'
  }

  predicate AllDigits(s: string) {
    forall i :: 0 <= i < |s| ==> IsDigit(s[i])
  }

  function DigitChar(d: nat): (c: char)
    requires d < 10
    ensures IsDigit(c)
  {
    ('0' as int + d) as char
  }

  function DigitValue(c: char): (d: nat)
    requires IsDigit(c)
    ensures d < 10 && DigitChar(d) == c
  {
    c as int - '0' as int
  }

  /** The value of a string of decimal digits, most significant first. */
  function DigitsValue(s: string): nat
    requires AllDigits(s)
  {
    if |s| == 0 then 0 else DigitsValue(s[..|s| - 1]) * 10 + DigitValue(s[|s| - 1])
  }

  function Pow10(n: nat): (p: nat)
    ensures p >= 1
  {
    if n == 0 then 1 else 10 * Pow10(n - 1)
  }

  /** Python's `str(n)` for a non-negative integer: shortest decimal form. */
  function NatToString(n: nat): string
  {
    if n < 10 then [DigitChar(n)] else NatToString(n / 10) + [DigitChar(n % 10)]
  }

  /** The `width` low-order decimal digits of `n`, zero padded (strftime's `%Y`, `%m`, `%d`). */
  function FixedDigits(n: nat, width: nat): string
  {
    if width == 0 then [] else FixedDigits(n / 10, width - 1) + [DigitChar(n % 10)]
  }

  lemma {:induction false} NatToStringShape(n: nat)
    ensures AllDigits(NatToString(n))
    ensures 1 <= |NatToString(n)|
    ensures n >= 10 ==> NatToString(n)[0] != '0'
    ensures DigitsValue(NatToString(n)) == n
  {
    if n >= 10 {
      NatToStringShape(n / 10);
      var s := NatToString(n);
      assert s[..|s| - 1] == NatToString(n / 10);
    }
  }

  /** `str(n)` has exactly as many digits as `n` needs. */
  lemma {:induction false} NatToStringLength(n: nat, k: nat)
    requires k == 0 || Pow10(k) <= n
    requires n < Pow10(k + 1)
    ensures |NatToString(n)| == k + 1
  {
    if k > 0 {
      NatToStringLength(n / 10, k - 1);
    }
  }

  /** Two numbers with the same decimal rendering are equal, so `str` is injective. */
  lemma NatToStringInjective(a: nat, b: nat)
    requires NatToString(a) == NatToString(b)
    ensures a == b
  {
    NatToStringShape(a);
    NatToStringShape(b);
  }

  lemma {:induction false} FixedDigitsShape(n: nat, width: nat)
    ensures |FixedDigits(n, width)| == width
    ensures AllDigits(FixedDigits(n, width))
    ensures n < Pow10(width) ==> DigitsValue(FixedDigits(n, width)) == n
  {
    if width > 0 {
      FixedDigitsShape(n / 10, width - 1);
      var s := FixedDigits(n, width);
      assert s[..|s| - 1] == FixedDigits(n / 10, width - 1);
    }
  }

  /** Re-rendering the value of a digit string at its own width gives the string back. */
  lemma {:induction false} FixedDigitsOfValue(s: string)
    requires AllDigits(s)
    ensures DigitsValue(s) < Pow10(|s|)
    ensures FixedDigits(DigitsValue(s), |s|) == s
  {
    if |s| > 0 {
      var init := s[..|s| - 1];
      FixedDigitsOfValue(init);
      var v := DigitsValue(s);
      assert v / 10 == DigitsValue(init);
      assert v % 10 == DigitValue(s[|s| - 1]);
      assert s == init + [s[|s| - 1]];
    }
  }

  function LowerChar(c: char): char
  {
    if 'A' <= c <= 'Z' then (c as int + 32) as char else c
  }

  predicate IsUpper(c: char) {
    'A' <= c <= 'Z'
  }

  /** `str.lower()` on the ASCII range. */
  function Lower(s: string): (r: string)
    ensures |r| == |s|
    ensures forall i :: 0 <= i < |r| ==> !IsUpper(r[i])
    ensures forall i :: 0 <= i < |r| ==> r[i] == s[i] || (IsUpper(s[i]) && r[i] as int == s[i] as int + 32)
  {
    seq(|s|, i requires 0 <= i < |s| => LowerChar(s[i]))
  }

  /** Lower-casing an already lower-cased name changes nothing. */
  lemma LowerIdempotent(s: string)
    ensures Lower(Lower(s)) == Lower(s)
  {
  }

  predicate StartsWith(s: string, prefix: string) {
    |prefix| <= |s| && s[..|prefix|] == prefix
  }

  /** `sub` occurs in `s` starting at index `i`. */
  predicate OccursAt(s: string, sub: string, i: nat) {
    i + |sub| <= |s| && s[i..i + |sub|] == sub
  }

  /** Python's `sub in s` on strings. */
  function Contains(s: string, sub: string): (b: bool)
    ensures b <==> exists i: nat :: OccursAt(s, sub, i)
    decreases |s|
  {
    if StartsWith(s, sub) then
      assert OccursAt(s, sub, 0);
      true
    else if |s| == 0 then false
    else
      var b := Contains(s[1..], sub);
      if b then
        var i: nat :| OccursAt(s[1..], sub, i);
        assert s[i + 1..i + 1 + |sub|] == s[1..][i..i + |sub|];
        assert OccursAt(s, sub, i + 1);
        true
      else
        assert forall i: nat :: OccursAt(s, sub, i) ==> i > 0 && OccursAt(s[1..], sub, i - 1) by {
          forall i: nat | OccursAt(s, sub, i)
            ensures i > 0 && OccursAt(s[1..], sub, i - 1)
          {
            assert s[1..][i - 1..i - 1 + |sub|] == s[i..i + |sub|];
          }
        }
        false
  }

  function RFind(s: string, c: char): (i: int)
    ensures -1 <= i < |s|
    ensures i >= 0 ==> s[i] == c
    ensures forall k :: i < k < |s| ==> s[k] != c
  {
    if |s| == 0 then -1
    else if s[|s| - 1] == c then |s| - 1
    else RFind(s[..|s| - 1], c)
  }

  /** The root part of `os.path.splitext(p)` (POSIX): everything before the last
      dot of the final path component, unless that component is only dots up to it. */
  function SplitExtRoot(p: string): string
  {
    var sep := RFind(p, '/');
    var dot := RFind(p, '.');
    if dot > sep && exists k :: sep + 1 <= k < dot && p[k] != '.' then p[..dot] else p
  }

  /** Stripping the extension of `root + ext` returns `root` when `root` is a
      plain file name and `ext` is a single dotted suffix. */
  lemma SplitExtStripsSuffix(root: string, ext: string)
    requires |root| > 0 && root[0] != '.'
    requires forall k :: 0 <= k < |root| ==> root[k] != '.' && root[k] != '/'
    requires |ext| > 0 && ext[0] == '.'
    requires forall k :: 1 <= k < |ext| ==> ext[k] != '.' && ext[k] != '/'
    ensures SplitExtRoot(root + ext) == root
  {
    var p := root + ext;
    var sep := RFind(p, '/');
    var dot := RFind(p, '.');
    assert p[|root|] == '.';
    assert dot == |root|;
    assert forall k :: 0 <= k < |p| ==> p[k] != '/';
    assert sep == -1;
    assert p[0] != '.';
    assert p[..dot] == root;
  }
}

=== FILE: wrappers.dfy ===
/** Failure-carrying results used across the model in place of the source's
    exceptions and unbound variables. */
module Wrappers {

  datatype Option<+T> = None | Some(value: T)

  datatype Result<+R, +E> = Success(value: R) | Failure(error: E)
}
